=== FILE: README.md ===
# Survey submission handler — a Dafny model

This project models the `POST /v1/survey` handler of a small survey service
(`submit_survey` in `app.py`). The handler reads a JSON submission and
validates it against the submission schema. It replaces the email and age with
SHA-256 digests and resolves a deduplication identifier. It assembles the
stored record with server-observed metadata and appends that record to an
append-only store.

Without Flask, the handler is a pure function. Its inputs are:

- the request: the parsed body, the headers and the peer address;
- an `Environment`: the digest function, the schema check, the two clock
  readings, and whether the append completes;
- the store, a sequence of records.

It returns the outcome and the store after the call.

Modules, leaf first:

- `Wrappers` (`wrappers.dfy`): `Option` and `Result`.
- `Decimal` (`decimal.dfy`): Python's `str` of an integer, and the fixed-width
  zero-padded fields that `strftime` writes.
- `Clock` (`clock.dfy`): UTC instants with the ranges a Python `datetime`
  enforces, and the `%Y%m%d%H` hour bucket.
- `Survey` (`survey.dfy`): JSON values, the validated submission, the stored
  record, the request, the environment, outcomes, status codes and response
  bodies.
- `Handler` (`handler.dfy`): identifier resolution, PII replacement,
  client-address fallback and record assembly.
- `Endpoint` (`endpoint.dfy`): outcome selection, the append, the handler end
  to end (`Process`), and repeated calls against one store (`Serve`).
- `Guarantees` (`guarantees.dfy`): properties that relate the stored record to
  its inputs, or one call to another.

The digest function is the `hash` field of `Environment`. It is an arbitrary
function `string -> string`. The only facts used about it are that it is a
function and that it is applied to exactly the strings the handler hashes. The
schema check is the `validate` field. It maps the payload's members to either
a `Submission` or the list of violations.

Three behaviours of the code are easy to misread:

- A client identifier is used only when it is non-empty. The code tests the
  identifier's truthiness (app.py:40), so an empty string falls back to the
  derived identifier, like an absent one.
- A storage failure is not caught by the handler. It propagates to the
  framework, which answers 500. The model reports it as `ServerError(StorageFailure)`.
- The JSON literal `null` as a body is answered like a missing body, 400
  `invalid_json`, because `get_json` returns `None` for it.

## Model

| member | source | states |
|---|---|---|
| `Endpoint.Process` | app.py:26-58 | The store only grows, and by exactly one record, and only when the status is 201. Every other outcome leaves it unchanged. A body that is not a JSON object gives 400 `invalid_json`. A schema failure gives 422 and carries the validator's complete violation list. The outcome is 201 exactly when the submission validates, assembly succeeds and the append completes. The appended record is then the assembled one. |
| `Endpoint.GetJson` | app.py:27 | The payload is absent exactly when the body is missing, unparseable or the JSON literal `null`. Otherwise it is the parsed body. |
| `Endpoint.Admit` | app.py:31-58 | After intake, the outcome is never `invalid_json`. A validation failure gives 422 with the validator's violations and commits nothing. An assembly clash gives a 500 carrying the clash, exactly when the submission validates and assembly fails. A failed append after a successful assembly gives a 500 storage failure. The outcome is 201 exactly when validation, assembly and the append all succeed, and the assembled record is then committed. A record is committed exactly on 201. |
| `Survey.StatusCode` | app.py:29-58 | `invalid_json` is 400, a validation error 422, success 201 and an uncaught exception 500. Each code belongs to exactly one kind of outcome. |
| `Survey.ResponseBody` | app.py:29-58 | Success answers `{"status": "ok"}`. The two client errors carry `error` set to `invalid_json` or `validation_error`, and a validation error's `detail` lists every violation in order. An internal error has no JSON body. |
| `Endpoint.Intake` | app.py:27-29 | Only a JSON object body gets past intake, and its members are passed on as the keyword arguments. Every other body, including `null`, is refused as `invalid_json`. |
| `Endpoint.IntakeAsWritten` | app.py:27-32 | As the code is written, a missing, unparseable or `null` body is refused as `invalid_json`. An object body passes with its members unchanged as the keyword arguments. A body that parses to an array or a scalar reaches `**payload` and ends in a server error. |
| `Endpoint.ProcessAsWritten` | app.py:26-58 | The handler as written answers a non-object, non-null JSON body with an internal error, and leaves the store unchanged. |
| `Endpoint.Handle` | app.py:26-58 | A call produces a record to commit exactly when its outcome is 201. |
| `Endpoint.Serve` | app.py:57-58 | Running calls in order against one store keeps every earlier record. The store gains the committed records after them, in call order. Each call gets the response it would get alone. |
| `Endpoint.CommittedCountsStored` | app.py:57-58 | A sequence of calls commits exactly as many records as it has 201 responses. |
| `Survey.Fields` | app.py:46 | The submission's dictionary holds every answer unchanged, plus the four typed fields; `email` and `age` hold the raw values. |
| `Handler.ExcludeSchemaKeys` | app.py:46 | Excluding `user_agent`, `email`, `age` and `submission_id` from the submission's dictionary leaves exactly the survey answers, with their values unchanged. |
| `Handler.ResolveId` | app.py:40-44 | A truthy client identifier is used verbatim. Otherwise the identifier is the digest of the raw email followed by the hour bucket of the clock. |
| `Handler.FallbackKeyInjective` | app.py:43-44 | The fallback hash input (raw email followed by the bucket) is equal for two pairs exactly when the emails are equal and the instants fall in the same UTC hour. So crossing an hour boundary always changes what is hashed. |
| `Handler.SameHourSameId` | app.py:42-44 | Two submissions with the same raw email and no usable client id, resolved at clock readings in the same UTC hour, get equal identifiers. |
| `Handler.ClientIp` | app.py:53 | A present `X-Forwarded-For` header wins, even when it is empty. Otherwise a non-empty peer address is used, else the empty string. |
| `Handler.MergeKeywords` | app.py:47-55 | Merging the submission fields with the explicit keyword arguments succeeds exactly when no name is given twice. The merged record then holds both sets of fields unchanged. A clash reports all the clashing names. Python's message names only the first, but a 500 response shows neither. |
| `Handler.BuildRecord` | app.py:37-55 | Assembly fails exactly when an answer is named `received_at` or `ip`. The record's keys are the answers plus the six assigned fields. Answers are copied unchanged. `submission_id` is the non-empty client id, or else the digest of email followed by bucket. `email` and `age` are digests of the raw email and of `str(age)`. `received_at` is the second clock reading. `ip` follows the fallback chain. `user_agent` is the header's value, or null when the header is absent. |
| `Clock.HourBucket` | app.py:43 | The bucket is ten decimal digits for every valid instant. |
| `Clock.BucketRoundTrip` | app.py:43 | Reading the bucket back as 4+2+2+2 digits gives the instant's year, month, day and hour. |
| `Clock.BucketIdentifiesHour` | app.py:43 | Two instants have the same bucket exactly when they fall in the same UTC hour. |
| `Decimal.Padded` | app.py:43 | A zero-padded field has exactly the requested width and consists only of digits. |
| `Decimal.PaddedValue` | app.py:43 | A zero-padded field reads back as the number it was written from, whenever that number fits the width. |
| `Decimal.NatString` | app.py:38 | `str` of a natural number is non-empty, all digits, and has no leading zero unless it is `0`. |
| `Decimal.NatStringValue` | app.py:38 | `str` of a natural number reads back as that number. |
| `Decimal.IntString` | app.py:38 | `str` of an integer is non-empty and starts with a minus sign exactly when the integer is negative. The rest is the digits of its magnitude, and the string reads back as the integer. |
| `Decimal.IntStringInjective` | app.py:38 | Two integers have the same `str` exactly when they are equal, so distinct ages are hashed from distinct strings. |
| `Guarantees.SuppliedIdKept` | app.py:40-41 | A non-empty client `submission_id` is stored verbatim. |
| `Guarantees.FallbackIdDerived` | app.py:42-44 | With an absent or empty client id, the stored id is the digest of the raw email followed by the hour bucket of the clock. |
| `Guarantees.StoredIdsAgreeWithinHour` | app.py:42-44 | Two stored submissions with the same raw email and no usable client id, digested by the same function and bucketed in the same UTC hour, are stored under the same identifier. |
| `Guarantees.PiiStoredAsDigests` | app.py:37-38 | The stored `email` is the digest of the raw email. The stored `age` is the digest of the decimal string of the age. |
| `Guarantees.RecordSeesOnlyDigestsAndAnswers` | app.py:37-55 | Two submissions with the same answers, the same resolved id and the same email and age digests produce the same record. |
| `Guarantees.RecordSeesEmailOnlyThroughDigests` | app.py:37-51 | Two submissions that differ only in the email produce the same record when their email digests agree, and their fallback-id digests agree too where a fallback id is used. So the raw email affects the record only through its digests. |
| `Guarantees.RecordSeesAgeOnlyThroughDigest` | app.py:38-51 | Two submissions that differ only in the age produce the same record when their age digests agree. So the raw age affects the record only through its digest. |
| `Guarantees.RecordIgnoresSubmittedAgent` | app.py:46-54 | The submission's own `user_agent` never affects the record. |
| `Guarantees.AnswersCopiedVerbatim` | app.py:46-48 | Every answer appears in the stored record unchanged. The record has no keys besides the answers and the six assigned fields. |
| `Guarantees.DisjointSchemaIsStored` | app.py:47-57 | When no answer is named `received_at` or `ip`, a valid submission is stored exactly when the append completes. |
| `Guarantees.AsWrittenDiffersOnlyOnNonObjects` | app.py:27-34 | The written handler and the corrected one agree on every request, except bodies that parse to an array, string, number or boolean. On those the written one answers 500 and the corrected one 400. |
| `Guarantees.ArrayBodyExample` | app.py:27-32 | For the body `[]`, the written handler answers 500 and the corrected one answers 400. |

## Left out

- Flask setup, routing, CORS, the `/ping` health check and `app.run` (app.py:9-11, 16-23, 60-61). These are framework plumbing with no decision logic.
- SHA-256 and the UTF-8 encoding (app.py:13-14) come from a foreign library. The digest is a parameter about which nothing is assumed. In particular, nothing is proved about collisions, non-invertibility, or a digest differing from its input.
- The schema rules for `SurveySubmission` and `StoredSurveyRecord` are defined in `models.py`, which is not part of this model. The validator is a parameter. `StoredSurveyRecord` is assumed to keep every keyword argument as given.
- `append_json_line` is defined in `storage.py`, which is not part of this model. Its serialization, file creation and concurrent-append atomicity are left out. The flag `appendSucceeds` says whether it appends one whole record or raises.
- Reading the clock is left out. The two `datetime.now` calls (app.py:43, app.py:52) are the two clock fields of `Environment`.
- Headers are a map keyed by canonical header name. Werkzeug's case-insensitive lookup is not modelled.
- JSON numbers are integers. Fractions and floats are not modelled.
- Python's `%Y` is rendered zero-padded to four digits for every year. The C library on Linux does not pad years below 1000.
- Each violation in a 422 body is rendered with only its field and reason. The full error dictionaries are not modelled.
- The body of an internal-server-error response is Flask's error page. It is represented as no JSON body.
- `Endpoint.Intake`: refuses array and scalar bodies with 400, which app.py:27-29 does not do. The written behaviour is kept as `IntakeAsWritten` (see Findings).
- `Endpoint.Process`: not the handler as written; it refuses non-object bodies with 400. The written behaviour is kept as `ProcessAsWritten` (see Findings).

## Findings

| source | as written | input that shows it | evidently intended | confidence | as-written member | corrected member |
|---|---|---|---|---|---|---|
| app.py:27-34 | The guard rejects only a `None` payload. Any other parsed JSON value is passed to `SurveySubmission(**payload)`. For a non-mapping value this raises a `TypeError`, which the `except ValidationError` clause does not catch, so the request ends in a 500. | a request body of `[]` (or `"x"`, `5`, `true`) with a JSON content type | a body that is not a JSON object is refused as a client error (400 `invalid_json`), and the store is unchanged | medium, not executed | `Endpoint.ProcessAsWritten` | `Endpoint.Process` |

=== FILE: clock.dfy ===
/** UTC instants as `datetime.now(timezone.utc)` yields them, and the
    `%Y%m%d%H` hour bucket used by the fallback submission identifier. */
module Clock {
  import opened Decimal

  /** A UTC calendar instant with microsecond resolution. */
  datatype DateTime = DateTime(year: int, month: int, day: int, hour: int, minute: int, second: int, microsecond: int)

  const MinYear := 1
  const MaxYear := 9999

  predicate IsLeapYear(y: int) {
    y % 4 == 0 && (y % 100 != 0 || y % 400 == 0)
  }

  function DaysInMonth(y: int, m: int): int
    requires 1 <= m <= 12
  {
    if m == 2 then (if IsLeapYear(y) then 29 else 28)
    else if m == 4 || m == 6 || m == 9 || m == 11 then 30
    else 31
  }

  /** The ranges a Python `datetime` enforces on its components. */
  predicate Valid(t: DateTime) {
    && MinYear <= t.year <= MaxYear
    && 1 <= t.month <= 12
    && 1 <= t.day <= DaysInMonth(t.year, t.month)
    && 0 <= t.hour < 24
    && 0 <= t.minute < 60
    && 0 <= t.second < 60
    && 0 <= t.microsecond < 1000000
  }

  type Instant = t: DateTime | Valid(t) witness DateTime(1970, 1, 1, 0, 0, 0, 0)

  /** The clock hour an instant falls in: everything the bucket keeps. */
  datatype HourStamp = HourStamp(year: int, month: int, day: int, hour: int)

  function HourOf(t: DateTime): HourStamp {
    HourStamp(t.year, t.month, t.day, t.hour)
  }

  predicate SameHour(a: DateTime, b: DateTime) {
    HourOf(a) == HourOf(b)
  }

  /** `strftime("%Y%m%d%H")`: year in four digits, then month, day and hour in
      two digits each, zero-padded, without separators. */
  function HourBucket(t: Instant): (s: string)
    ensures |s| == 10
    ensures AllDigits(s)
  {
    Padded(t.year, 4) + Padded(t.month, 2) + Padded(t.day, 2) + Padded(t.hour, 2)
  }

  /** Reads the four fields of a bucket string back. */
  function ParseBucket(s: string): HourStamp
    requires |s| == 10 && AllDigits(s)
  {
    assert AllDigits(s[..4]) && AllDigits(s[4..6]) && AllDigits(s[6..8]) && AllDigits(s[8..]);
    HourStamp(ValueOf(s[..4]), ValueOf(s[4..6]), ValueOf(s[6..8]), ValueOf(s[8..]))
  }

  /** The bucket string records exactly the hour of the instant. */
  lemma BucketRoundTrip(t: Instant)
    ensures ParseBucket(HourBucket(t)) == HourOf(t)
  {
    var s := HourBucket(t);
    assert s[..4] == Padded(t.year, 4);
    assert s[4..6] == Padded(t.month, 2);
    assert s[6..8] == Padded(t.day, 2);
    assert s[8..] == Padded(t.hour, 2);
    assert Pow10(4) == 10000 && Pow10(2) == 100;
    PaddedValue(t.year, 4);
    PaddedValue(t.month, 2);
    PaddedValue(t.day, 2);
    PaddedValue(t.hour, 2);
  }

  /** Two instants share a bucket string exactly when they fall in the same UTC hour. */
  lemma BucketIdentifiesHour(a: Instant, b: Instant)
    ensures HourBucket(a) == HourBucket(b) <==> SameHour(a, b)
  {
    BucketRoundTrip(a);
    BucketRoundTrip(b);
  }

  lemma BucketExample()
    ensures HourBucket(DateTime(2024, 3, 15, 12, 5, 0, 0)) == "2024031512"
  {
  }
}

=== FILE: decimal.dfy ===
/** Decimal renderings of integers: Python's `str` of an `int`, and the
    fixed-width zero-padded fields that `strftime` writes. */
module Decimal {

  predicate IsDigit(c: char) {
    '0' <= c <= '9'
  }

  predicate AllDigits(s: string) {
    forall i :: 0 <= i < |s| ==> IsDigit(s[i])
  }

  function DigitChar(d: nat): (c: char)
    requires d < 10
    ensures IsDigit(c)
  {
    ('0' as int + d) as char
  }

  function DigitValue(c: char): (d: nat)
    requires IsDigit(c)
    ensures d < 10 && DigitChar(d) == c
  {
    c as int - '0' as int
  }

  function Pow10(k: nat): nat
  {
    if k == 0 then 1 else 10 * Pow10(k - 1)
  }

  /** The number a string of decimal digits denotes, most significant digit first. */
  function ValueOf(s: string): nat
    requires AllDigits(s)
  {
    if |s| == 0 then 0 else 10 * ValueOf(s[..|s| - 1]) + DigitValue(s[|s| - 1])
  }

  /** `n` written in exactly `width` digits with leading zeros (the low-order
      `width` digits when `n` does not fit). */
  function Padded(n: nat, width: nat): (s: string)
    ensures |s| == width
    ensures AllDigits(s)
  {
    if width == 0 then "" else Padded(n / 10, width - 1) + [DigitChar(n % 10)]
  }

  /** A zero-padded field is read back as the number it was written from. */
  lemma {:induction false} PaddedValue(n: nat, width: nat)
    requires n < Pow10(width)
    ensures ValueOf(Padded(n, width)) == n
  {
    if width > 0 {
      PaddedValue(n / 10, width - 1);
      var s := Padded(n, width);
      assert s[..|s| - 1] == Padded(n / 10, width - 1);
    }
  }

  /** The shortest decimal form of a natural number: no leading zero except for 0 itself. */
  function NatString(n: nat): (s: string)
    ensures 1 <= |s|
    ensures AllDigits(s)
    ensures 1 < |s| ==> s[0] != '0'
  {
    if n < 10 then [DigitChar(n)] else NatString(n / 10) + [DigitChar(n % 10)]
  }

  lemma {:induction false} NatStringValue(n: nat)
    ensures ValueOf(NatString(n)) == n
  {
    if n >= 10 {
      NatStringValue(n / 10);
      var s := NatString(n);
      assert s[..|s| - 1] == NatString(n / 10);
    }
  }

  /** Python's `str(i)` for an `int`: a minus sign before the digits of a negative number. */
  function IntString(i: int): (s: string)
    ensures |s| >= 1
    ensures s[0] == '-' <==> i < 0
    ensures i < 0 ==> AllDigits(s[1..]) && ValueOf(s[1..]) == -i
    ensures i >= 0 ==> AllDigits(s) && ValueOf(s) == i
  {
    if i < 0 then
      NatStringValue(-i);
      assert ("-" + NatString(-i))[1..] == NatString(-i);
      "-" + NatString(-i)
    else
      NatStringValue(i);
      NatString(i)
  }

  /** Distinct integers have distinct decimal strings, so `str` loses nothing. */
  lemma IntStringInjective(a: int, b: int)
    ensures IntString(a) == IntString(b) <==> a == b
  {
    if IntString(a) == IntString(b) && a < 0 {
      assert IntString(a)[1..] == IntString(b)[1..];
    }
  }

  lemma IntStringExample()
    ensures IntString(30) == "30"
    ensures IntString(-7) == "-7"
  {
  }
}

=== FILE: endpoint.dfy ===
/** Outcome selection and the append to the store: the handler end to end,
    and repeated calls against one store. */
module Endpoint {
  import opened Wrappers
  import opened Decimal
  import opened Clock
  import opened Survey
  import opened Handler

  /** `request.get_json(silent=True)`: a parsed JSON `null` reads as `None`,
      the same as a missing or unparseable body. */
  function GetJson(body: Option<Json>): (payload: Option<Json>)
    ensures payload.None? <==> body.None? || body == Some(JNull)
    ensures payload.Some? ==> payload == body
  {
    if body == Some(JNull) then None else body
  }

  predicate IsObject(body: Option<Json>) {
    body.Some? && body.value.JObject?
  }

  /** The payload's keyword arguments. Every body that is not a JSON object is
      refused as invalid JSON (see `IntakeAsWritten` for the handler's own
      behaviour on arrays and scalars). */
  function Intake(body: Option<Json>): (r: Result<map<string, Json>, Outcome>)
    ensures r.Ok? <==> IsObject(body)
    ensures r.Ok? ==> r.value == body.value.members
    ensures r.Err? ==> r.error == InvalidJson
  {
    match GetJson(body)
    case Some(JObject(m)) => Ok(m)
    case _ => Err(InvalidJson)
  }

  /** The payload as the handler takes it: only an absent (or `null`) payload
      is refused; any other non-object reaches `SurveySubmission(**payload)`,
      which raises a TypeError outside the `except ValidationError`. */
  function IntakeAsWritten(body: Option<Json>): (r: Result<map<string, Json>, Outcome>)
    ensures r.Ok? <==> IsObject(body)
    ensures r == Err(InvalidJson) <==> GetJson(body).None?
    ensures r == Err(ServerError(NotAMapping)) <==> !IsObject(body) && GetJson(body).Some?
    ensures r.Ok? ==> r.value == body.value.members
  {
    match GetJson(body)
    case None => Err(InvalidJson)
    case Some(JObject(m)) => Ok(m)
    case Some(_) => Err(ServerError(NotAMapping))
  }

  /** The submission a request carries, when its payload is an object the schema accepts. */
  function Submitted(req: Request, env: Environment): Option<Submission> {
    if IsObject(req.body) then
      match env.validate(req.body.value.members)
      case Ok(s) => Some(s)
      case Err(_) => None
    else None
  }

  /** The handler's answer to one request, and the record it commits, if any. */
  datatype Reply = Reply(outcome: Outcome, committed: Option<Record>)

  /** The handler's answer to one request, and the store after the call. */
  datatype Step = Step(outcome: Outcome, log: Log)

  /** Everything after the payload is read: validation, assembly and the append. */
  function Admit(fields: map<string, Json>, req: Request, env: Environment): (r: Reply)
    ensures r.committed.Some? <==> r.outcome == Stored
    ensures r.outcome != InvalidJson
    ensures r.outcome.ValidationFailed? <==> env.validate(fields).Err?
    ensures r.outcome.ValidationFailed? ==> r.outcome.violations == env.validate(fields).error
    ensures r.outcome == Stored ==> env.appendSucceeds && BuildRecord(env.validate(fields).value, req, env) == Ok(r.committed.value)
    ensures r.outcome == ServerError(StorageFailure) <==>
      env.validate(fields).Ok? && BuildRecord(env.validate(fields).value, req, env).Ok? && !env.appendSucceeds
    ensures r.outcome == Stored <==>
      env.validate(fields).Ok? && BuildRecord(env.validate(fields).value, req, env).Ok? && env.appendSucceeds
    ensures r.outcome.ServerError? && r.outcome != ServerError(StorageFailure) <==>
      env.validate(fields).Ok? && BuildRecord(env.validate(fields).value, req, env).Err?
    ensures r.outcome.ServerError? && r.outcome != ServerError(StorageFailure) ==>
      BuildRecord(env.validate(fields).value, req, env) == Err(r.outcome.fault)
  {
    match env.validate(fields)
    case Err(vs) => Reply(ValidationFailed(vs), None)
    case Ok(s) =>
      match BuildRecord(s, req, env)
      case Err(f) => Reply(ServerError(f), None)
      case Ok(rec) => if env.appendSucceeds then Reply(Stored, Some(rec)) else Reply(ServerError(StorageFailure), None)
  }

  function Append(log: Log, rec: Option<Record>): Log {
    match rec
    case None => log
    case Some(x) => log + [x]
  }

  /** The response to one request, and the record it commits, if any. */
  function Handle(req: Request, env: Environment): (r: Reply)
    ensures r.committed.Some? <==> r.outcome == Stored
  {
    match Intake(req.body)
    case Err(o) => Reply(o, None)
    case Ok(fields) => Admit(fields, req, env)
  }

  /** One call of the handler against the store `log`: the response and the store afterwards. */
  function Process(req: Request, env: Environment, log: Log): (r: Step)
    // the store only ever grows by one record, and only on 201
    ensures log <= r.log
    ensures StatusCode(r.outcome) == 201 <==> |r.log| == |log| + 1
    ensures StatusCode(r.outcome) != 201 ==> r.log == log
    // outcome selection
    ensures r.outcome == InvalidJson <==> !IsObject(req.body)
    ensures r.outcome.ValidationFailed? <==> IsObject(req.body) && env.validate(req.body.value.members).Err?
    ensures r.outcome.ValidationFailed? ==> r.outcome.violations == env.validate(req.body.value.members).error
    ensures r.outcome == Stored <==>
      Submitted(req, env).Some? && BuildRecord(Submitted(req, env).value, req, env).Ok? && env.appendSucceeds
    ensures r.outcome == Stored ==> BuildRecord(Submitted(req, env).value, req, env) == Ok(r.log[|log|])
  {
    var reply := Handle(req, env);
    Step(reply.outcome, Append(log, reply.committed))
  }

  /** The handler exactly as written: a JSON array, string, number or boolean body ends in a 500. */
  function ProcessAsWritten(req: Request, env: Environment, log: Log): (r: Step)
    ensures log <= r.log
    ensures r.outcome == ServerError(NotAMapping) <==> !IsObject(req.body) && GetJson(req.body).Some?
    ensures r.outcome == ServerError(NotAMapping) ==> r.log == log
  {
    match IntakeAsWritten(req.body)
    case Err(o) => Step(o, log)
    case Ok(fields) =>
      var reply := Admit(fields, req, env);
      Step(reply.outcome, Append(log, reply.committed))
  }

  // ---------------------------------------------------------------------------
  // Repeated calls against one store

  /** The records a sequence of calls commits, in the order the calls complete. */
  function Committed(calls: seq<(Request, Environment)>): Log
  {
    if |calls| == 0 then []
    else
      var last := calls[|calls| - 1];
      Append(Committed(calls[..|calls| - 1]), Handle(last.0, last.1).committed)
  }

  /** The responses to a sequence of calls, one per call. */
  function Outcomes(calls: seq<(Request, Environment)>): (os: seq<Outcome>)
    ensures |os| == |calls|
  {
    seq(|calls|, i requires 0 <= i < |calls| => Handle(calls[i].0, calls[i].1).outcome)
  }

  function CountStored(outcomes: seq<Outcome>): nat
  {
    if |outcomes| == 0 then 0
    else CountStored(outcomes[..|outcomes| - 1]) + (if outcomes[|outcomes| - 1] == Stored then 1 else 0)
  }

  /** A sequence of calls commits exactly one record per call answered 201. */
  lemma {:induction false} CommittedCountsStored(calls: seq<(Request, Environment)>)
    ensures |Committed(calls)| == CountStored(Outcomes(calls))
  {
    if |calls| > 0 {
      var prefix := calls[..|calls| - 1];
      CommittedCountsStored(prefix);
      assert Outcomes(calls)[..|calls| - 1] == Outcomes(prefix);
    }
  }

  lemma CommittedStep(calls: seq<(Request, Environment)>, i: nat)
    requires i < |calls|
    ensures Committed(calls[..i + 1]) == Append(Committed(calls[..i]), Handle(calls[i].0, calls[i].1).committed)
  {
    assert calls[..i + 1][..i] == calls[..i];
  }

  /** Runs the handler once per call, in order, against a single store. The
      store keeps its earlier records and gains the committed ones after them. */
  method Serve(calls: seq<(Request, Environment)>, log: Log) returns (outcomes: seq<Outcome>, final: Log)
    ensures outcomes == Outcomes(calls)
    ensures final == log + Committed(calls)
  {
    outcomes := [];
    final := log;
    var i := 0;
    while i < |calls|
      invariant 0 <= i <= |calls|
      invariant |outcomes| == i
      invariant forall j :: 0 <= j < i ==> outcomes[j] == Handle(calls[j].0, calls[j].1).outcome
      invariant final == log + Committed(calls[..i])
    {
      var reply := Handle(calls[i].0, calls[i].1);
      CommittedStep(calls, i);
      outcomes := outcomes + [reply.outcome];
      final := Append(final, reply.committed);
      i := i + 1;
    }
    assert calls[..i] == calls;
  }
}

=== FILE: guarantees.dfy ===
/** Properties of the handler that relate a stored record to its inputs, or
    two calls to each other. */
module Guarantees {
  import opened Wrappers
  import opened Decimal
  import opened Clock
  import opened Survey
  import opened Handler
  import opened Endpoint

  function Newest(log: Log): Record
    requires |log| > 0
  {
    log[|log| - 1]
  }

  /** A non-empty client identifier is stored verbatim. */
  lemma SuppliedIdKept(req: Request, env: Environment, log: Log, s: Submission)
    requires Submitted(req, env) == Some(s) && HasUsableId(s)
    requires Process(req, env, log).outcome == Stored
    ensures Newest(Process(req, env, log).log)["submission_id"] == Data(JStr(s.submissionId.value))
  {
  }

  /** Without a usable client identifier, the identifier is the digest of the
      raw email followed by the hour bucket of the clock. */
  lemma FallbackIdDerived(req: Request, env: Environment, log: Log, s: Submission)
    requires Submitted(req, env) == Some(s) && !HasUsableId(s)
    requires Process(req, env, log).outcome == Stored
    ensures Newest(Process(req, env, log).log)["submission_id"] == Data(JStr(env.hash(s.email + HourBucket(env.bucketClock))))
  {
  }

  /** Two stored submissions with the same raw email and no usable client
      identifier, digested alike and bucketed within the same UTC hour, are
      stored under the same identifier: the deduplication the fallback is for. */
  lemma StoredIdsAgreeWithinHour(req1: Request, env1: Environment, log1: Log, s1: Submission,
                                 req2: Request, env2: Environment, log2: Log, s2: Submission)
    requires Submitted(req1, env1) == Some(s1) && !HasUsableId(s1)
    requires Submitted(req2, env2) == Some(s2) && !HasUsableId(s2)
    requires s1.email == s2.email && env1.hash == env2.hash
    requires SameHour(env1.bucketClock, env2.bucketClock)
    requires Process(req1, env1, log1).outcome == Stored && Process(req2, env2, log2).outcome == Stored
    ensures Newest(Process(req1, env1, log1).log)["submission_id"] == Newest(Process(req2, env2, log2).log)["submission_id"]
  {
    FallbackIdDerived(req1, env1, log1, s1);
    FallbackIdDerived(req2, env2, log2, s2);
    BucketIdentifiesHour(env1.bucketClock, env2.bucketClock);
  }

  /** The stored email and age are the digests of the raw email and of the
      decimal string of the age. */
  lemma PiiStoredAsDigests(req: Request, env: Environment, log: Log, s: Submission)
    requires Submitted(req, env) == Some(s)
    requires Process(req, env, log).outcome == Stored
    ensures Newest(Process(req, env, log).log)["email"] == Data(JStr(env.hash(s.email)))
    ensures Newest(Process(req, env, log).log)["age"] == Data(JStr(env.hash(IntString(s.age))))
  {
  }

  /** The record sees the submission only through its answers, its resolved
      identifier and the two PII digests. */
  lemma RecordSeesOnlyDigestsAndAnswers(s1: Submission, s2: Submission, req: Request, env: Environment)
    requires s1.answers == s2.answers
    requires ResolveId(s1, env.hash, env.bucketClock) == ResolveId(s2, env.hash, env.bucketClock)
    requires env.hash(s1.email) == env.hash(s2.email)
    requires env.hash(IntString(s1.age)) == env.hash(IntString(s2.age))
    ensures BuildRecord(s1, req, env) == BuildRecord(s2, req, env)
  {
    assert AssignedFields(s1, req, env) == AssignedFields(s2, req, env);
  }

  /** The raw email reaches the record only through its digests: two
      submissions that differ only in the email, whose digests agree, give the
      same record. */
  lemma RecordSeesEmailOnlyThroughDigests(s1: Submission, s2: Submission, req: Request, env: Environment)
    requires s2 == s1.(email := s2.email)
    requires env.hash(s1.email) == env.hash(s2.email)
    requires HasUsableId(s1) || env.hash(FallbackKey(s1.email, env.bucketClock)) == env.hash(FallbackKey(s2.email, env.bucketClock))
    ensures BuildRecord(s1, req, env) == BuildRecord(s2, req, env)
  {
    RecordSeesOnlyDigestsAndAnswers(s1, s2, req, env);
  }

  /** The raw age reaches the record only through its digest. */
  lemma RecordSeesAgeOnlyThroughDigest(s1: Submission, s2: Submission, req: Request, env: Environment)
    requires s2 == s1.(age := s2.age)
    requires env.hash(IntString(s1.age)) == env.hash(IntString(s2.age))
    ensures BuildRecord(s1, req, env) == BuildRecord(s2, req, env)
  {
    RecordSeesOnlyDigestsAndAnswers(s1, s2, req, env);
  }

  /** The submission's own `user_agent` never reaches the record: the stored
      agent string is the request header's. */
  lemma RecordIgnoresSubmittedAgent(s1: Submission, s2: Submission, req: Request, env: Environment)
    requires s2 == s1.(userAgent := s2.userAgent)
    ensures BuildRecord(s1, req, env) == BuildRecord(s2, req, env)
  {
    RecordSeesOnlyDigestsAndAnswers(s1, s2, req, env);
  }

  /** Every answer is stored unchanged, and the record holds nothing else but
      the six assigned fields. */
  lemma AnswersCopiedVerbatim(req: Request, env: Environment, log: Log, s: Submission)
    requires Submitted(req, env) == Some(s)
    requires Process(req, env, log).outcome == Stored
    ensures Newest(Process(req, env, log).log).Keys == s.answers.Keys + AssignedKeys
    ensures forall k :: k in s.answers ==> Newest(Process(req, env, log).log)[k] == Data(s.answers[k])
  {
  }

  /** A schema whose answers avoid `received_at` and `ip` never fails in
      assembly: a valid submission is stored whenever the append completes. */
  lemma DisjointSchemaIsStored(req: Request, env: Environment, log: Log, s: Submission)
    requires Submitted(req, env) == Some(s)
    requires s.answers.Keys !! ServerKeys
    ensures Process(req, env, log).outcome == Stored <==> env.appendSucceeds
  {
  }

  // ---------------------------------------------------------------------------
  // Non-object payloads

  /** The handler as written and the corrected intake disagree exactly on
      bodies that parse to an array, a string, a number or a boolean. */
  lemma AsWrittenDiffersOnlyOnNonObjects(req: Request, env: Environment, log: Log)
    ensures ProcessAsWritten(req, env, log) != Process(req, env, log) <==> !IsObject(req.body) && GetJson(req.body).Some?
    ensures ProcessAsWritten(req, env, log) != Process(req, env, log) ==>
      StatusCode(ProcessAsWritten(req, env, log).outcome) == 500 && StatusCode(Process(req, env, log).outcome) == 400
  {
  }

  /** A JSON array body: the handler as written answers 500, the corrected one 400. */
  lemma ArrayBodyExample()
    ensures var req := Request(Some(JArray([])), map[], None);
            var env := Environment(
              x => x, f => Err([]),
              DateTime(2024, 3, 15, 12, 5, 0, 0), DateTime(2024, 3, 15, 12, 5, 0, 0), true);
            StatusCode(ProcessAsWritten(req, env, []).outcome) == 500 && StatusCode(Process(req, env, []).outcome) == 400
  {
  }
}

=== FILE: handler.dfy ===
/** The decision steps of the `POST /v1/survey` handler between validation and
    the append: identifier resolution, PII replacement, server-observed
    metadata and record assembly. */
module Handler {
  import opened Wrappers
  import opened Decimal
  import opened Clock
  import opened Survey

  /** The server-observed fields the handler adds to every record. */
  const ServerKeys: set<string> := {"received_at", "ip"}

  /** The record fields the handler passes by keyword next to the submission's
      own: the four typed schema fields, replaced, and the two server fields. */
  const AssignedKeys: set<string> := SchemaKeys + ServerKeys

  /** `submission.dict(exclude=...)`: dropping the four typed fields from the
      submission's dictionary leaves exactly the survey answers, values untouched. */
  function ExcludeSchemaKeys(s: Submission): (data: map<string, Json>)
    ensures data == s.answers
  {
    Fields(s) - SchemaKeys
  }

  // ---------------------------------------------------------------------------
  // Identifier resolution

  /** The truthiness test on the client identifier: present and non-empty. */
  predicate HasUsableId(s: Submission) {
    s.submissionId.Some? && s.submissionId.value != ""
  }

  /** The string hashed into a fallback identifier: raw email, then the hour bucket. */
  function FallbackKey(email: string, now: Instant): string {
    email + HourBucket(now)
  }

  /** The stored identifier: the client's own when it is truthy, otherwise the
      digest of the raw email followed by the hour bucket of `now`. */
  function ResolveId(s: Submission, hash: string -> string, now: Instant): (id: string)
    ensures HasUsableId(s) ==> id == s.submissionId.value
    ensures !HasUsableId(s) ==> id == hash(s.email + HourBucket(now))
  {
    if HasUsableId(s) then s.submissionId.value else hash(FallbackKey(s.email, now))
  }

  /** The fallback key determines both the email and the hour it was made in,
      because the bucket has a fixed length. */
  lemma FallbackKeyInjective(e1: string, t1: Instant, e2: string, t2: Instant)
    ensures FallbackKey(e1, t1) == FallbackKey(e2, t2) <==> e1 == e2 && SameHour(t1, t2)
  {
    BucketIdentifiesHour(t1, t2);
    if FallbackKey(e1, t1) == FallbackKey(e2, t2) {
      var k := FallbackKey(e1, t1);
      assert |e1| == |e2|;
      assert e1 == k[..|e1|] == e2;
      assert HourBucket(t1) == k[|e1|..] == HourBucket(t2);
    }
  }

  /** Two submissions from the same raw email without a usable identifier,
      resolved in the same UTC hour, get the same identifier. */
  lemma SameHourSameId(s1: Submission, t1: Instant, s2: Submission, t2: Instant, hash: string -> string)
    requires s1.email == s2.email && !HasUsableId(s1) && !HasUsableId(s2)
    requires SameHour(t1, t2)
    ensures ResolveId(s1, hash, t1) == ResolveId(s2, hash, t2)
  {
    BucketIdentifiesHour(t1, t2);
  }

  // ---------------------------------------------------------------------------
  // Server-observed metadata

  /** `X-Forwarded-For` when the header is present (even if empty), else the
      peer address when it is non-empty, else the empty string. An empty peer
      address and a missing one both give `""`, as `remote_addr or ""` does. */
  function ClientIp(headers: map<string, string>, remoteAddr: Option<string>): (ip: string)
    ensures "X-Forwarded-For" in headers ==> ip == headers["X-Forwarded-For"]
    ensures "X-Forwarded-For" !in headers && remoteAddr.Some? ==> ip == remoteAddr.value
    ensures "X-Forwarded-For" !in headers && remoteAddr.None? ==> ip == ""
  {
    if "X-Forwarded-For" in headers then headers["X-Forwarded-For"]
    else match remoteAddr
      case Some(addr) => addr
      case None => ""
  }

  function HeaderValue(headers: map<string, string>, name: string): Option<string> {
    if name in headers then Some(headers[name]) else None
  }

  // ---------------------------------------------------------------------------
  // Record assembly

  /** Keyword arguments `**data` plus explicit ones: a name given twice is a TypeError. */
  function MergeKeywords(data: map<string, Json>, explicit: Record): (r: Result<Record, Fault>)
    ensures r.Ok? <==> data.Keys !! explicit.Keys
    ensures r.Ok? ==> r.value.Keys == data.Keys + explicit.Keys
    ensures r.Ok? ==> forall k :: k in data ==> r.value[k] == Data(data[k])
    ensures r.Ok? ==> forall k :: k in explicit ==> r.value[k] == explicit[k]
    ensures r.Err? ==> r.error == DuplicateKeyword(data.Keys * explicit.Keys)
  {
    if data.Keys !! explicit.Keys then
      Ok((map k | k in data :: Data(data[k])) + explicit)
    else
      Err(DuplicateKeyword(data.Keys * explicit.Keys))
  }

  /** The fields the handler assigns itself, by keyword, for submission `s`. */
  function AssignedFields(s: Submission, req: Request, env: Environment): Record
  {
    map[
      "submission_id" := Data(JStr(ResolveId(s, env.hash, env.bucketClock))),
      "email" := Data(JStr(env.hash(s.email))),
      "age" := Data(JStr(env.hash(IntString(s.age)))),
      "received_at" := Timestamp(env.receiptClock),
      "ip" := Data(JStr(ClientIp(req.headers, req.remoteAddr))),
      "user_agent" := Data(OptionalString(HeaderValue(req.headers, "User-Agent")))
    ]
  }

  /** The stored record for a validated submission. */
  function BuildRecord(s: Submission, req: Request, env: Environment): (r: Result<Record, Fault>)
    ensures r.Err? <==> s.answers.Keys * ServerKeys != {}
    ensures r.Err? ==> r.error == DuplicateKeyword(s.answers.Keys * ServerKeys)
    ensures r.Ok? ==> r.value.Keys == s.answers.Keys + AssignedKeys
    ensures r.Ok? ==> forall k :: k in s.answers ==> r.value[k] == Data(s.answers[k])
    ensures r.Ok? && HasUsableId(s) ==> r.value["submission_id"] == Data(JStr(s.submissionId.value))
    ensures r.Ok? && !HasUsableId(s) ==> r.value["submission_id"] == Data(JStr(env.hash(s.email + HourBucket(env.bucketClock))))
    ensures r.Ok? ==> r.value["email"] == Data(JStr(env.hash(s.email)))
    ensures r.Ok? ==> r.value["age"] == Data(JStr(env.hash(IntString(s.age))))
    ensures r.Ok? ==> r.value["received_at"] == Timestamp(env.receiptClock)
    ensures r.Ok? ==> r.value["ip"] == Data(JStr(ClientIp(req.headers, req.remoteAddr)))
    ensures r.Ok? && "User-Agent" in req.headers ==> r.value["user_agent"] == Data(JStr(req.headers["User-Agent"]))
    ensures r.Ok? && "User-Agent" !in req.headers ==> r.value["user_agent"] == Data(JNull)
  {
    var data := ExcludeSchemaKeys(s);
    var explicit := AssignedFields(s, req, env);
    assert explicit.Keys == AssignedKeys;
    assert data.Keys * explicit.Keys == s.answers.Keys * ServerKeys;
    MergeKeywords(data, explicit)
  }
}

=== FILE: survey.dfy ===
/** The data the submission endpoint consumes and produces: parsed JSON, the
    validated submission, the stored record, the request as the handler sees
    it, and the outcomes it answers with. */
module Survey {
  import opened Wrappers
  import opened Clock

  /** A parsed JSON value. Numbers are integers in this model. */
  datatype Json =
    | JNull
    | JBool(b: bool)
    | JInt(i: int)
    | JStr(s: string)
    | JArray(items: seq<Json>)
    | JObject(members: map<string, Json>)

  /** One entry of the validator's error list: which field, and why. */
  datatype Violation = Violation(field: string, reason: string)

  /** The field names the submission schema gives a type of its own. */
  const SchemaKeys: set<string> := {"email", "age", "submission_id", "user_agent"}

  /** A validated submission: the raw email and age, the optional client
      identifier and agent string, and every other schema field (the survey
      answers) by name. */
  datatype SubmissionData = SubmissionData(
    email: string,
    age: int,
    submissionId: Option<string>,
    userAgent: Option<string>,
    answers: map<string, Json>)

  /** Field names are unique, so no answer is stored under one of the typed names. */
  type Submission = s: SubmissionData | s.answers.Keys !! SchemaKeys
    witness SubmissionData("", 0, None, None, map[])

  function OptionalString(o: Option<string>): Json {
    match o
    case None => JNull
    case Some(v) => JStr(v)
  }

  /** The submission as a dictionary of all its fields, as `submission.dict()`
      gives it: every answer unchanged, plus the four typed fields. */
  function Fields(s: Submission): (d: map<string, Json>)
    ensures d.Keys == s.answers.Keys + SchemaKeys
    ensures forall k :: k in s.answers ==> d[k] == s.answers[k]
    ensures d["email"] == JStr(s.email) && d["age"] == JInt(s.age)
  {
    s.answers["email" := JStr(s.email)]["age" := JInt(s.age)]
      ["submission_id" := OptionalString(s.submissionId)]
      ["user_agent" := OptionalString(s.userAgent)]
  }

  /** The schema check: a submission built from the payload's keyword arguments,
      or the complete list of violations. */
  type Validator = map<string, Json> -> Result<Submission, seq<Violation>>

  /** A value of the stored record: JSON data or the receipt instant. */
  datatype Value = Data(json: Json) | Timestamp(at: Instant)

  /** A stored survey record, by field name. */
  type Record = map<string, Value>

  /** The append-only store: one record per successful submission, oldest first. */
  type Log = seq<Record>

  /** What the handler reads from the HTTP request. `body` is the parsed JSON
      body, `None` when it is missing, not JSON, or does not parse. `headers`
      is keyed by canonical header name. */
  datatype Request = Request(body: Option<Json>, headers: map<string, string>, remoteAddr: Option<string>)

  /** What the handler takes from outside the request: the digest function,
      the schema check, the two clock readings, and whether the append to the
      store completes. */
  datatype Environment = Environment(
    hash: string -> string,
    validate: Validator,
    bucketClock: Instant,
    receiptClock: Instant,
    appendSucceeds: bool)

  /** Why a request ended in an internal server error. */
  datatype Fault =
    | NotAMapping                           // `**payload` on a value that is not a dictionary
    | DuplicateKeyword(names: set<string>)  // a submission field shadows an assigned record field
    | StorageFailure                        // the append to the store raised

  datatype Outcome =
    | InvalidJson
    | ValidationFailed(violations: seq<Violation>)
    | Stored
    | ServerError(fault: Fault)

  /** The HTTP status of each outcome; distinct outcome kinds get distinct codes. */
  function StatusCode(o: Outcome): (code: int)
    ensures code == 201 <==> o == Stored
    ensures code == 400 <==> o == InvalidJson
    ensures code == 422 <==> o.ValidationFailed?
    ensures code == 500 <==> o.ServerError?
  {
    match o
    case InvalidJson => 400
    case ValidationFailed(_) => 422
    case Stored => 201
    case ServerError(_) => 500
  }

  function ViolationJson(v: Violation): Json {
    JObject(map["loc" := JStr(v.field), "msg" := JStr(v.reason)])
  }

  /** The JSON body sent back; an internal error gets the framework's error page instead. */
  function ResponseBody(o: Outcome): (body: Option<Json>)
    ensures body.None? <==> o.ServerError?
    ensures o == Stored ==> body == Some(JObject(map["status" := JStr("ok")]))
    ensures o == InvalidJson ==> body.value.JObject? && "error" in body.value.members && body.value.members["error"] == JStr("invalid_json")
    ensures o.ValidationFailed? ==> body.value.JObject? && "error" in body.value.members && body.value.members["error"] == JStr("validation_error")
    ensures o.ValidationFailed? ==>
      && "detail" in body.value.members && body.value.members["detail"].JArray?
      && |body.value.members["detail"].items| == |o.violations|
      && forall i :: 0 <= i < |o.violations| ==> body.value.members["detail"].items[i] == ViolationJson(o.violations[i])
  {
    match o
    case InvalidJson =>
      Some(JObject(map["error" := JStr("invalid_json"), "detail" := JStr("Body must be application/json")]))
    case ValidationFailed(vs) =>
      Some(JObject(map["error" := JStr("validation_error"),
                       "detail" := JArray(seq(|vs|, i requires 0 <= i < |vs| => ViolationJson(vs[i])))]))
    case Stored =>
      Some(JObject(map["status" := JStr("ok")]))
    case ServerError(_) =>
      None
  }
}

=== FILE: wrappers.dfy ===
/** Optional values and success-or-failure results used throughout the model. */
module Wrappers {

  /** A value that may be absent: Python's `None` versus a present value. */
  datatype Option<+T> = None | Some(value: T)

  /** The outcome of a step that either produces a value or reports why it could not. */
  datatype Result<+T, +E> = Ok(value: T) | Err(error: E)
}
